=== FILE: README.md ===
# Reverse-proxy service registry: a Dafny model

This project models how the reverse-proxy service keeps its records and
settings in memory:

- **Configuration mixin** (`Config`): each service starts with an empty
  configuration cache. On start, every statically declared default is written
  into the cache where the cached value is missing or falsy. Then every entry
  of the remote configuration snapshot is written over the cache. The snapshot
  is a parameter of the model.
- **Persisted collections** (`Store`): records live in an id-keyed collection
  `map<Id, Row<T>>`. Removal is soft: it stamps `deletedAt` and keeps the row.
  The `notDeleted` default scope hides stamped rows from every query.
- **Routes** (`Routes`): the field rules of a Route. `vHost` is required,
  lower-cased and at least 3 UTF-16 code units long, as JavaScript's
  `length` counts. `zone` and `auth` default to
  `null`, `certs` to `true`, and `strategy` is an enum defaulting to
  `LatencyStrategy`. The `lookup` action finds a live route by its exact
  `vHost` or fails with a 404 `ROUTE_NOT_FOUND` client error.
- **Hosts** (`Hosts`): the field rules of a Host. `route` is required and
  immutable, `hostname` must be non-empty, `port` is required. The defaults
  are weight 200, vnodes 50, group `BLUE`, protocol `http:` and cluster
  `default`. The `lookup` action lists a route's live hosts. The
  `routes.removed` handler soft-removes every live host of the removed route.
- **Routers** (`Routers`): the field rules of a Router. `type` defaults to
  `shared`, `status` is an enum defaulting to `pending`, and `name` is unique.
  The service declares the configuration default for
  `routes.routers.namespace`.

Field validation is modelled as a function from the supplied fields to either
the stored record, with defaults filled in, or a `ValidationError` naming
every offending field. Enum values arrive as strings and are parsed against
the declared value lists. Each parser has a round-trip lemma with the enum's
`Name`.

Startup seeds the local cache only, and only where the cached value is
falsy (`mixins/config.mixin.js`, lines 57-64). The remote `v1.config.set`
seeding sits in the nested block listed under Left out.

Modelling decisions:
- The `unique: true` rule on a router's `name` is modelled as a unique index
  over the whole collection. Soft-deleted rows stay in the collection, so they
  keep their names.
- A `route` supplied when updating a host is ignored. The stored value is kept.
- Ids are chosen by the caller of `Insert`, which requires a fresh id.
- The removal timestamp is a natural number `now` passed in by the caller.

## Model

| member | source | states |
|---|---|---|
| Config.SeedDefaults | mixins/config.mixin.js:57-64 | A default replaces a missing or falsy cached value (undefined, null, false, 0, NaN, ""). A truthy cached value is never overwritten. Keys without a default are untouched. The key set becomes cache ∪ defaults. |
| Config.ApplySnapshot | mixins/config.mixin.js:65-68 | Every snapshot key maps to exactly the snapshot's value. Cached keys absent from the snapshot keep their value. |
| Config.Start | mixins/config.mixin.js:57-68 | The remote snapshot wins over defaults and cache. A default lands only where the snapshot is silent and the cached value is falsy. The key set is cache ∪ defaults ∪ snapshot. |
| Config.SeedLoop | mixins/config.mixin.js:57-64 | The defaults loop, run over the keys in any order, computes the same map as the seeding step. |
| Config.SnapshotLoop | mixins/config.mixin.js:65-68 | The snapshot loop, run over the entries in any order, computes the same map as the overwrite step. |
| Config.Started | mixins/config.mixin.js:57-68 | The startup handler (both loops in sequence) equals the startup merge. |
| Config.StartFromEmpty | mixins/config.mixin.js:17-68 | From the empty cache made at creation, the result's keys are exactly the default keys ∪ the snapshot keys. Snapshot keys hold snapshot values. Every other default key holds its declared default. |
| Config.MissingDefaultsYieldSnapshot | mixins/config.mixin.js:57-68 | A missing `settings.config` acts as no defaults: the result is the cache overlaid by the snapshot, and from the empty cache it is the snapshot itself. |
| Config.StartIdempotent | mixins/config.mixin.js:57-68 | Running the startup merge a second time with the same defaults and snapshot gives the same map. |
| Text.Utf16Length | services/routes.service.js:43 | The length the `min: 3` rule measures is JavaScript's `length`: each character counts one UTF-16 code unit, or two at or above U+10000, so the length `n` of `s` satisfies `|s| <= n <= 2*|s|`. |
| Text.ToLower | services/routes.service.js:44 | The `lowercase` sanitizer keeps the length in characters and in UTF-16 code units, maps each character through the letter lower-casing, leaves no upper-case letter, and fixes already lower-case text. |
| Store.RemoveHidesOnlyThatRow | services/routes.hosts.service.js:108-117 | Removal is soft: the removed row stays stored, and every default-scope query afterwards returns what it returned before minus exactly that row. |
| Store.InsertShowsNewRow | services/routers.service.js:148-154 | A newly stored row is live, so a default-scope query afterwards returns its old result plus the new record exactly when the record satisfies the query. |
| Store.RemoveEntity | services/routes.hosts.service.js:108-117 | Removal succeeds exactly on a live row. The row stays stored with the same record and gains `deletedAt`, so the default scope hides it. Every other row is unchanged. Any other id fails as not found. |
| Routes.ParseStrategy | services/routes.service.js:65-70 | A strategy is accepted exactly when it is one of RandomStrategy, IPHashStrategy, LatencyStrategy or RoundRobinStrategy, and it reads back as that name. |
| Routes.ParseStrategyName | services/routes.service.js:65-70 | Every strategy parses back from its own name. |
| Routes.NewRoute | services/routes.service.js:41-70 | Creation succeeds exactly when `vHost` is given with a JavaScript length (UTF-16 code units) ≥ 3 and `strategy` is omitted or a declared value. Failure names `vHost`/`strategy` exactly when each rule is broken. The stored `vHost` is the lower-cased input. `certs` defaults to true, `strategy` to LatencyStrategy, and `zone`/`auth` to null. |
| Routes.AstralVHostAccepted | services/routes.service.js:41-46 | The `min: 3` rule counts UTF-16 code units: `"a😀"` has length 3 and is accepted. |
| Routes.CreateDefaults | services/routes.service.js:48-70 | A route created with only a `vHost` of JavaScript length ≥ 3 gets certs = true, strategy = LatencyStrategy, zone = null and auth = null. |
| Routes.UpdateRoute | services/routes.service.js:41-70 | An update is accepted exactly when a supplied `vHost` has a JavaScript length ≥ 3 and a supplied `strategy` is declared. It keeps a valid route valid (lower-case `vHost`, length ≥ 3). Omitted fields keep their stored values. A rejected update is a validation error naming exactly the offending `vHost`/`strategy` fields. |
| Routes.Create | services/routes.service.js:41-46 | Storing a created route succeeds exactly when validation does, a rejected creation returns the validator's error, and keeps every stored route's `vHost` lower-case with length ≥ 3. |
| Routes.Lookup | services/routes.service.js:112-137 | An empty query fails validation. Otherwise a success is a live route whose `vHost` equals the query exactly. Failure happens exactly when no live route matches and is the 404 `ROUTE_NOT_FOUND` error carrying `{vHost}`. |
| Routes.UpperCaseQueryNeverMatches | services/routes.service.js:117-125 | The query is not lower-cased, so a query holding an upper-case letter matches no stored route. |
| Hosts.ParseGroup | services/routes.hosts.service.js:74-79 | `group` is accepted exactly when it is BLUE or GREEN, and it reads back as that name. |
| Hosts.ParseProtocol | services/routes.hosts.service.js:81-86 | `protocol` is accepted exactly when it is `http:` or `https:`, and it reads back as that name. |
| Hosts.ParseNames | services/routes.hosts.service.js:74-86 | Every group and protocol parses back from its own name. |
| Hosts.NewHost | services/routes.hosts.service.js:41-92 | Creation succeeds exactly when `route`, a non-empty `hostname` and `port` are given and `group`/`protocol` are omitted or declared. Failure names each broken field. The defaults are weight 200, vnodes 50, group BLUE, protocol `http:` and cluster `default`. |
| Hosts.CreateDefaults | services/routes.hosts.service.js:63-92 | A host created with only route, hostname and port gets weight 200, vnodes 50, group BLUE, protocol `http:` and cluster `default`. |
| Hosts.UpdateHost | services/routes.hosts.service.js:41-92 | An update never changes the host's `route`. It is accepted exactly when a supplied hostname is non-empty and supplied enums are declared. Supplied fields replace the stored ones and omitted fields are kept. A rejected update is a validation error naming exactly the offending `hostname`/`group`/`protocol` fields. |
| Hosts.Update | services/routes.hosts.service.js:41-92 | Updating a missing or soft-deleted host fails as not found. Otherwise it succeeds exactly when the field rules accept the update, and a rejected update returns their validation error. On success the row holds the updated record, stays live, keeps its `route`, and every other row is unchanged. |
| Hosts.Lookup | services/routes.hosts.service.js:138-153 | An empty route id fails validation. Otherwise the result is exactly the hosts with that `route` and no `deletedAt`, with their records. |
| Hosts.RouteRemoved | services/routes.hosts.service.js:160-172 | The cascade stamps `deletedAt` on exactly the live hosts of the removed route. Hosts of other routes and already-deleted hosts are unchanged. No row disappears, and afterwards the route has no live host. |
| Hosts.OnRouteRemoved | services/routes.hosts.service.js:160-172 | The handler, which removes the found attachments one by one in any order, yields the cascade above. It removes exactly as many hosts as the route had live. |
| Hosts.RemovedRouteHasNoHosts | services/routes.hosts.service.js:160-172 | After the handler, `lookup` for the removed route returns no host, however many it had. |
| Hosts.RouteRemovedTwice | services/routes.hosts.service.js:163-171 | A second run of the cascade for the same route changes nothing, so it removes no host. |
| Routers.ParseType | services/routers.service.js:56-63 | `type` is accepted exactly when it is `dedicated` or `shared`, and it reads back as that name. |
| Routers.ParseStatus | services/routers.service.js:102-109 | `status` is accepted exactly when it is one of active, inactive, deleted, pending, banned or created, and it reads back as that name. |
| Routers.ParseNames | services/routers.service.js:56-109 | Every type and status parses back from its own name. |
| Routers.NewRouter | services/routers.service.js:49-128 | Creation succeeds exactly when name, node, address, namespace and cluster are given and `type`/`status` are omitted or declared. Failure names each broken field. `type` defaults to shared, `status` to pending and `routes` to the empty list, and `pod` stays optional. |
| Routers.CreateDefaults | services/routers.service.js:56-128 | A router created with only its required fields is shared and pending, with no pod and no routes. |
| Routers.Create | services/routers.service.js:49-53 | A router the field rules reject fails with the validator's error. A valid router fails with a duplicate-key error exactly when a stored router already has the name. Otherwise it stores the router, keeping router names unique. |
| Routers.RemoveKeepsUniqueNames | services/routers.service.js:145-154 | Soft-removing a router keeps router names unique. |
| Routers.NamespaceAfterStartup | services/routers.service.js:156-158 | After startup from the empty cache, `routes.routers.namespace` holds the remote snapshot's value if it has one, and otherwise its declared default `1OD3E7rd1Qh8gM08j0Le`. |

## Left out

- Pod reconciliation: the routers service declares no actions, events or methods. Only the `status` enum and its `pending` default exist, and those are modelled.
- The `module.exports` assignment nested inside `started()` in the configuration mixin: it replaces the module's export at run time and is not the merge the running service executes. Its remote `v1.config.set` seeding therefore is not modelled.
- Broker calls (`v1.config.all`, `v1.config.get`, `v1.config.set`): the remote snapshot is a parameter.
- `populate` resolvers of every field: they resolve ids to other services' records when reading, and do not affect what is stored.
- Persistence and transport: the NeDB adapter, file paths, REST paths and how the library emits `routes.removed`. Only the handler's effect is modelled.
- `createdAt` and `updatedAt` timestamps. `deletedAt` is a natural number supplied by the caller instead of the wall clock.
- Concurrency and partial failure of the parallel removals in the `routes.removed` handler: they are modelled as a sequential loop, proved independent of order.
- Logging.
- Dynamic type checks (a string where a number is declared, and so on): the field datatypes make them impossible.
- On create, an explicit `null` and an omitted field are both `None`, and both receive the default.
- Routes.UpdateRoute: an explicit `null` is read as an omitted field, so the stored `zone`/`auth`/`certs` are kept, while the service writes the `null` (clearing `zone` or `auth`).
- Hosts.UpdateHost: likewise, an explicit `null` for `weight`, `vnodes` or `cluster` keeps the stored value.
- Generic CRUD actions other than create, update and remove (list, get, find, count), and updates of routers: they apply the same field rules and are not part of this model.
- JavaScript numbers are modelled as integers: a host's `port`, `weight` and `vnodes` and numeric configuration values (`Config.Num`) cannot hold fractions such as port 8080.5, which the service would accept and store. Nothing in the model computes with these values.
- Text.ToLower: lower-cases the ASCII letters A-Z only, while JavaScript lower-casing also maps non-ASCII letters.
- Routes.Lookup: returns some live matching route, not a particular one, because the order in which the store yields matches is not part of this model.

=== FILE: config.dfy ===
/**
 * The configuration mixin's startup merge. The cache starts empty when the
 * service is created; on start every declared default is written into it
 * where the cached value is falsy, and then every entry of the remote
 * snapshot is written over it. The remote snapshot is passed in as a value.
 */
module Config {
  import opened Wrappers

  /** The JavaScript values a configuration entry can hold, as far as truthiness sees them. */
  datatype Value =
    | Undefined
    | Null
    | Bool(b: bool)
    | Num(n: int)
    | NaN
    | Str(s: string)
    | Obj(ref: nat)

  /** JavaScript truthiness: `undefined`, `null`, `false`, `0`, `NaN` and `""` are falsy. */
  predicate Truthy(v: Value) {
    match v
    case Undefined => false
    case Null => false
    case NaN => false
    case Bool(b) => b
    case Num(n) => n != 0
    case Str(s) => s != ""
    case Obj(_) => true
  }

  type Key = string
  type Cache = map<Key, Value>

  /** The cache a service holds right after it is created. */
  const Empty: Cache := map[]

  /** `Map.get`: a missing key reads as `undefined`. */
  function Get(cache: Cache, key: Key): Value {
    if key in cache then cache[key] else Undefined
  }

  /** `settings.config || {}`: a service without declared defaults declares none. */
  function DeclaredDefaults(config: Option<map<Key, Value>>): map<Key, Value> {
    config.GetOr(map[])
  }

  /** The default-seeding loop: a default replaces a missing or falsy cached value only. */
  function SeedDefaults(defaults: map<Key, Value>, cache: Cache): (r: Cache)
    ensures r.Keys == cache.Keys + defaults.Keys
    ensures forall k :: k in cache && Truthy(cache[k]) ==> r[k] == cache[k]
    ensures forall k :: k in defaults && !Truthy(Get(cache, k)) ==> r[k] == defaults[k]
    ensures forall k :: k in cache && k !in defaults ==> r[k] == cache[k]
  {
    map k | k in cache.Keys + defaults.Keys ::
      if k in defaults && !Truthy(Get(cache, k)) then defaults[k] else cache[k]
  }

  /** The snapshot loop: every remote entry is written over the cache. */
  function ApplySnapshot(snapshot: map<Key, Value>, cache: Cache): (r: Cache)
    ensures r.Keys == cache.Keys + snapshot.Keys
    ensures forall k :: k in snapshot ==> r[k] == snapshot[k]
    ensures forall k :: k in cache && k !in snapshot ==> r[k] == cache[k]
  {
    cache + snapshot
  }

  /** The whole startup merge: defaults first, then the remote snapshot. */
  function Start(config: Option<map<Key, Value>>, snapshot: map<Key, Value>, cache: Cache): (r: Cache)
    ensures r.Keys == cache.Keys + DeclaredDefaults(config).Keys + snapshot.Keys
    ensures forall k :: k in snapshot ==> r[k] == snapshot[k]
    ensures forall k :: k in cache && k !in snapshot && Truthy(cache[k]) ==> r[k] == cache[k]
    ensures forall k :: k in DeclaredDefaults(config) && k !in snapshot && !Truthy(Get(cache, k)) ==>
                        r[k] == DeclaredDefaults(config)[k]
    ensures forall k :: k in cache && k !in DeclaredDefaults(config) && k !in snapshot ==> r[k] == cache[k]
  {
    ApplySnapshot(snapshot, SeedDefaults(DeclaredDefaults(config), cache))
  }

  /** The default-seeding loop as the service runs it, keys in any order. */
  method SeedLoop(defaults: map<Key, Value>, cache: Cache) returns (r: Cache)
    ensures r == SeedDefaults(defaults, cache)
  {
    ghost var seeded := SeedDefaults(defaults, cache);
    r := cache;
    var keys := defaults.Keys;
    while keys != {}
      invariant keys <= defaults.Keys
      invariant r.Keys == cache.Keys + (defaults.Keys - keys)
      invariant forall k :: k in r && k !in keys ==> r[k] == seeded[k]
      invariant forall k :: k in keys ==> Get(r, k) == Get(cache, k)
      decreases keys
    {
      var key :| key in keys;
      var value := defaults[key];
      var found := Get(r, key);
      if !Truthy(found) {
        r := r[key := value];
      }
      keys := keys - {key};
    }
    assert forall k :: k in r ==> r[k] == seeded[k];
  }

  /** The snapshot loop as the service runs it, entries in any order. */
  method SnapshotLoop(snapshot: map<Key, Value>, cache: Cache) returns (r: Cache)
    ensures r == ApplySnapshot(snapshot, cache)
  {
    r := cache;
    var all := snapshot.Keys;
    while all != {}
      invariant all <= snapshot.Keys
      invariant r.Keys == cache.Keys + (snapshot.Keys - all)
      invariant forall k :: k in snapshot && k !in all ==> r[k] == snapshot[k]
      invariant forall k :: k in cache && (k !in snapshot || k in all) ==> r[k] == cache[k]
      decreases all
    {
      var key :| key in all;
      r := r[key := snapshot[key]];
      all := all - {key};
    }
    assert forall k :: k in r ==> r[k] == ApplySnapshot(snapshot, cache)[k];
  }

  /**
   * The startup handler: the defaults loop, then the snapshot loop. Its
   * result is the merge above whatever order the keys come in.
   */
  method Started(config: Option<map<Key, Value>>, snapshot: map<Key, Value>, cache: Cache) returns (r: Cache)
    ensures r == Start(config, snapshot, cache)
  {
    var seeded := SeedLoop(DeclaredDefaults(config), cache);
    r := SnapshotLoop(snapshot, seeded);
  }

  /** From the empty cache, the result holds exactly the default and snapshot keys, remote first. */
  lemma StartFromEmpty(config: Option<map<Key, Value>>, snapshot: map<Key, Value>)
    ensures Start(config, snapshot, Empty).Keys == DeclaredDefaults(config).Keys + snapshot.Keys
    ensures forall k :: k in DeclaredDefaults(config) && k !in snapshot ==>
                        Start(config, snapshot, Empty)[k] == DeclaredDefaults(config)[k]
    ensures forall k :: k in snapshot ==> Start(config, snapshot, Empty)[k] == snapshot[k]
  {
  }

  /** A service without `settings.config` ends up with the snapshot over its cache. */
  lemma MissingDefaultsYieldSnapshot(snapshot: map<Key, Value>, cache: Cache)
    ensures Start(None, snapshot, cache) == cache + snapshot
    ensures Start(None, snapshot, Empty) == snapshot
  {
  }

  /** Running the startup merge again with the same inputs changes nothing. */
  lemma StartIdempotent(config: Option<map<Key, Value>>, snapshot: map<Key, Value>, cache: Cache)
    ensures Start(config, snapshot, Start(config, snapshot, cache)) == Start(config, snapshot, cache)
  {
  }
}

=== FILE: errors.dfy ===
/** The errors the services raise to their callers. */
module Errors {

  datatype Error =
      /** A field rule was violated; `fields` names every offending field. */
    | ValidationError(fields: set<string>)
      /** The entity with this id does not exist or is soft-deleted. */
    | EntityNotFound(id: string)
      /** A unique index already holds `value` for `field`. */
    | DuplicateKey(field: string, value: string)
      /** A client error with an HTTP code, a machine-readable type and its data. */
    | ClientError(message: string, code: int, kind: string, data: map<string, string>)
}

=== FILE: hosts.dfy ===
/**
 * The route hosts service: the declared field rules of a Host, creation and
 * update under those rules (the owning route is immutable), the `lookup`
 * action listing a route's live hosts, and the `routes.removed` handler
 * that soft-removes every live host of a removed route.
 */
module Hosts {
  import opened Wrappers
  import opened Errors
  import opened Store

  /** The deployment group a host belongs to. */
  datatype Group = Blue | Green {
    function Name(): string {
      match this
      case Blue => "BLUE"
      case Green => "GREEN"
    }
  }

  /** The scheme a host is reached with. */
  datatype Protocol = Http | Https {
    function Name(): string {
      match this
      case Http => "http:"
      case Https => "https:"
    }
  }

  const GroupNames: set<string> := {"BLUE", "GREEN"}
  const ProtocolNames: set<string> := {"http:", "https:"}

  function ParseGroup(s: string): (r: Option<Group>)
    ensures r.Some? <==> s in GroupNames
    ensures r.Some? ==> r.value.Name() == s
  {
    if s == "BLUE" then Some(Blue) else if s == "GREEN" then Some(Green) else None
  }

  function ParseProtocol(s: string): (r: Option<Protocol>)
    ensures r.Some? <==> s in ProtocolNames
    ensures r.Some? ==> r.value.Name() == s
  {
    if s == "http:" then Some(Http) else if s == "https:" then Some(Https) else None
  }

  /** Every enum value reads back from its own name. */
  lemma ParseNames(g: Group, p: Protocol)
    ensures ParseGroup(g.Name()) == Some(g)
    ensures ParseProtocol(p.Name()) == Some(p)
  {
  }

  /** A stored host: a weighted backend of the route with id `route`. */
  datatype Host = Host(
    route: Id,
    hostname: string,
    port: int,
    weight: int,
    vnodes: int,
    group: Group,
    protocol: Protocol,
    cluster: string)

  /** The fields a caller supplies on create or update; `None` means omitted. */
  datatype HostFields = HostFields(
    route: Option<Id>,
    hostname: Option<string>,
    port: Option<int>,
    weight: Option<int>,
    vnodes: Option<int>,
    group: Option<string>,
    protocol: Option<string>,
    cluster: Option<string>)

  const DefaultWeight := 200
  const DefaultVnodes := 50
  const DefaultCluster := "default"

  /** The declared rules every stored host meets beyond its field types. */
  predicate ValidHost(h: Host) {
    h.hostname != ""
  }

  /** The fields of a host that carry a declared rule. */
  const FieldNames: set<string> := {"route", "hostname", "port", "group", "protocol"}

  /** The supplied value of `field` breaks its declared rule; required fields are required only when creating. */
  predicate Violates(f: HostFields, field: string, creating: bool) {
    match field
    case "route" => creating && f.route.None?
    case "hostname" => (creating && f.hostname.None?) || f.hostname == Some("")
    case "port" => creating && f.port.None?
    case "group" => f.group.Some? && f.group.value !in GroupNames
    case "protocol" => f.protocol.Some? && f.protocol.value !in ProtocolNames
    case _ => false
  }

  /** The fields that break a rule. */
  function FieldErrors(f: HostFields, creating: bool): set<string> {
    set field | field in FieldNames && Violates(f, field, creating)
  }

  /** Validates the supplied fields and fills in the declared defaults. */
  function NewHost(f: HostFields): (r: Result<Host, Error>)
    ensures r.Success? <==> f.route.Some? && f.hostname.Some? && f.hostname.value != "" && f.port.Some?
                            && (f.group.None? || f.group.value in GroupNames)
                            && (f.protocol.None? || f.protocol.value in ProtocolNames)
    ensures r.Failure? ==> r.error.ValidationError?
                           && ("route" in r.error.fields <==> f.route.None?)
                           && ("hostname" in r.error.fields <==> f.hostname.None? || f.hostname == Some(""))
                           && ("port" in r.error.fields <==> f.port.None?)
                           && ("group" in r.error.fields <==> f.group.Some? && f.group.value !in GroupNames)
                           && ("protocol" in r.error.fields <==> f.protocol.Some? && f.protocol.value !in ProtocolNames)
                           && r.error.fields <= FieldNames
    ensures r.Success? ==> ValidHost(r.value)
    ensures r.Success? ==> r.value.route == f.route.value && r.value.hostname == f.hostname.value
                           && r.value.port == f.port.value
    ensures r.Success? ==> r.value.weight == f.weight.GetOr(DefaultWeight)
                           && r.value.vnodes == f.vnodes.GetOr(DefaultVnodes)
                           && r.value.cluster == f.cluster.GetOr(DefaultCluster)
    ensures r.Success? ==> r.value.group.Name() == f.group.GetOr("BLUE")
                           && r.value.protocol.Name() == f.protocol.GetOr("http:")
  {
    var errors := FieldErrors(f, true);
    if errors != {} then Failure(ValidationError(errors))
    else
      assert forall field :: field in FieldNames ==> field !in errors;
      Success(Host(
        f.route.value,
        f.hostname.value,
        f.port.value,
        f.weight.GetOr(DefaultWeight),
        f.vnodes.GetOr(DefaultVnodes),
        if f.group.Some? then ParseGroup(f.group.value).value else Blue,
        if f.protocol.Some? then ParseProtocol(f.protocol.value).value else Http,
        f.cluster.GetOr(DefaultCluster)))
  }

  /** A host created with only its required fields gets every declared default. */
  lemma CreateDefaults(route: Id, hostname: string, port: int)
    requires hostname != ""
    ensures var r := NewHost(HostFields(Some(route), Some(hostname), Some(port), None, None, None, None, None));
            r.Success? && r.value.weight == 200 && r.value.vnodes == 50 && r.value.group == Blue
            && r.value.protocol == Http && r.value.cluster == "default"
  {
  }

  /**
   * Applies an update. The owning route is immutable: a supplied `route` is
   * ignored and the stored one kept. Other supplied fields are validated
   * and replace the stored ones.
   */
  function UpdateHost(stored: Host, f: HostFields): (r: Result<Host, Error>)
    ensures r.Success? <==> f.hostname != Some("")
                            && (f.group.None? || f.group.value in GroupNames)
                            && (f.protocol.None? || f.protocol.value in ProtocolNames)
    ensures r.Failure? ==> r.error.ValidationError?
                           && ("hostname" in r.error.fields <==> f.hostname == Some(""))
                           && ("group" in r.error.fields <==> f.group.Some? && f.group.value !in GroupNames)
                           && ("protocol" in r.error.fields <==> f.protocol.Some? && f.protocol.value !in ProtocolNames)
                           && r.error.fields <= {"hostname", "group", "protocol"}
    ensures r.Success? ==> r.value.route == stored.route
    ensures r.Success? && ValidHost(stored) ==> ValidHost(r.value)
    ensures r.Success? ==> r.value.hostname == f.hostname.GetOr(stored.hostname)
                           && r.value.port == f.port.GetOr(stored.port)
                           && r.value.weight == f.weight.GetOr(stored.weight)
                           && r.value.vnodes == f.vnodes.GetOr(stored.vnodes)
                           && r.value.cluster == f.cluster.GetOr(stored.cluster)
    ensures r.Success? ==> r.value.group.Name() == f.group.GetOr(stored.group.Name())
                           && r.value.protocol.Name() == f.protocol.GetOr(stored.protocol.Name())
  {
    var errors := FieldErrors(f, false);
    if errors != {} then Failure(ValidationError(errors))
    else
      assert forall field :: field in FieldNames ==> field !in errors;
      Success(Host(
        stored.route,
        f.hostname.GetOr(stored.hostname),
        f.port.GetOr(stored.port),
        f.weight.GetOr(stored.weight),
        f.vnodes.GetOr(stored.vnodes),
        if f.group.Some? then ParseGroup(f.group.value).value else stored.group,
        if f.protocol.Some? then ParseProtocol(f.protocol.value).value else stored.protocol,
        f.cluster.GetOr(stored.cluster)))
  }

  /** The `update` action on a stored host: the host must be live. */
  function Update(c: Collection<Host>, id: Id, f: HostFields): (r: Result<Collection<Host>, Error>)
    ensures id !in c || c[id].deletedAt.Some? ==> r == Failure(EntityNotFound(id))
    ensures r.Success? <==> id in c && c[id].NotDeleted() && UpdateHost(c[id].data, f).Success?
    ensures id in c && c[id].NotDeleted() && UpdateHost(c[id].data, f).Failure? ==>
              r == Failure(UpdateHost(c[id].data, f).error)
    ensures r.Success? ==> r.value.Keys == c.Keys && r.value[id].data.route == c[id].data.route
    ensures r.Success? ==> r.value[id] == Row(UpdateHost(c[id].data, f).value, None)
    ensures r.Success? ==> forall other :: other in c && other != id ==> r.value[other] == c[other]
  {
    if id !in c || !c[id].NotDeleted() then Failure(EntityNotFound(id))
    else
      var host :- UpdateHost(c[id].data, f);
      Success(c[id := c[id].(data := host)])
  }

  /** The query `{ route: routeId }`. */
  function OnRoute(routeId: Id): Host -> bool {
    (h: Host) => h.route == routeId
  }

  /** The live hosts of route `routeId`, by id. */
  function Attachments(c: Collection<Host>, routeId: Id): map<Id, Host> {
    FindEntities(c, OnRoute(routeId))
  }

  /** The row `id` is a live host of route `routeId`. */
  predicate Attached(c: Collection<Host>, routeId: Id, id: Id) {
    id in c && c[id].NotDeleted() && c[id].data.route == routeId
  }

  /** The `lookup` action: an empty route id is refused, otherwise the route's live hosts. */
  function Lookup(c: Collection<Host>, routeId: Id): (r: Result<map<Id, Host>, Error>)
    ensures r.Failure? <==> routeId == ""
    ensures r.Failure? ==> r.error == ValidationError({"route"})
    ensures r.Success? ==> forall id :: id in r.value <==> Attached(c, routeId, id)
    ensures r.Success? ==> forall id :: id in r.value ==> id in c && r.value[id] == c[id].data
  {
    if routeId == "" then Failure(ValidationError({"route"})) else Success(Attachments(c, routeId))
  }

  /**
   * The effect of the `routes.removed` handler: every live host of the
   * removed route is stamped `deletedAt`; nothing else changes.
   */
  function RouteRemoved(c: Collection<Host>, routeId: Id, now: nat): (r: Collection<Host>)
    ensures r.Keys == c.Keys
    ensures forall id :: id in c ==> r[id].data == c[id].data
    ensures forall id :: Attached(c, routeId, id) ==> r[id].deletedAt == Some(now)
    ensures forall id :: id in c && !Attached(c, routeId, id) ==> r[id] == c[id]
    ensures Attachments(r, routeId) == map[]
  {
    map id | id in c :: if Attached(c, routeId, id) then c[id].(deletedAt := Some(now)) else c[id]
  }

  /**
   * The `routes.removed` handler as the service runs it: find the live hosts
   * of the route, then remove each one; `removed` is how many it removed.
   */
  method OnRouteRemoved(c: Collection<Host>, routeId: Id, now: nat) returns (r: Collection<Host>, removed: nat)
    ensures r == RouteRemoved(c, routeId, now)
    ensures removed == |Attachments(c, routeId)|
    ensures Attachments(r, routeId) == map[]
  {
    var attachments := Attachments(c, routeId).Keys;
    var todo := attachments;
    r := c;
    removed := 0;
    while todo != {}
      invariant todo <= attachments
      invariant r.Keys == c.Keys
      invariant removed + |todo| == |attachments|
      invariant forall id :: id in todo ==> r[id] == c[id]
      invariant forall id :: id in c ==> r[id] == (if id in attachments && id !in todo
                                                   then c[id].(deletedAt := Some(now)) else c[id])
      decreases todo
    {
      var id :| id in todo;
      var result := RemoveEntity(r, id, now);
      r := result.value;
      removed := removed + 1;
      todo := todo - {id};
    }
    assert forall id :: id in r ==> r[id] == RouteRemoved(c, routeId, now)[id];
    assert |Attachments(c, routeId).Keys| == |Attachments(c, routeId)|;
  }

  /** After the handler, looking the removed route up finds no host, however many it had. */
  lemma RemovedRouteHasNoHosts(c: Collection<Host>, routeId: Id, now: nat)
    requires routeId != ""
    ensures Lookup(RouteRemoved(c, routeId, now), routeId) == Success(map[])
  {
  }

  /** A second run of the handler for the same route finds no host to remove and changes nothing. */
  lemma RouteRemovedTwice(c: Collection<Host>, routeId: Id, now: nat, later: nat)
    ensures |Attachments(RouteRemoved(c, routeId, now), routeId)| == 0
    ensures RouteRemoved(RouteRemoved(c, routeId, now), routeId, later) == RouteRemoved(c, routeId, now)
  {
  }
}

=== FILE: routers.dfy ===
/**
 * The routers service: the declared field rules of a Router (its `type`
 * and `status` enums and their defaults), creation under a unique `name`,
 * and the configuration default the service declares.
 */
module Routers {
  import opened Wrappers
  import opened Errors
  import opened Store
  import Config

  /** Whether a router is dedicated to one tenant or shared. */
  datatype RouterType = Dedicated | Shared {
    function Name(): string {
      match this
      case Dedicated => "dedicated"
      case Shared => "shared"
    }
  }

  /** The lifecycle labels a router's `status` may hold. */
  datatype Status = Active | Inactive | Deleted | Pending | Banned | Created {
    function Name(): string {
      match this
      case Active => "active"
      case Inactive => "inactive"
      case Deleted => "deleted"
      case Pending => "pending"
      case Banned => "banned"
      case Created => "created"
    }
  }

  const TypeNames: set<string> := {"dedicated", "shared"}
  const StatusNames: set<string> := {"active", "inactive", "deleted", "pending", "banned", "created"}

  function ParseType(s: string): (r: Option<RouterType>)
    ensures r.Some? <==> s in TypeNames
    ensures r.Some? ==> r.value.Name() == s
  {
    if s == "dedicated" then Some(Dedicated) else if s == "shared" then Some(Shared) else None
  }

  function ParseStatus(s: string): (r: Option<Status>)
    ensures r.Some? <==> s in StatusNames
    ensures r.Some? ==> r.value.Name() == s
  {
    if s == "active" then Some(Active)
    else if s == "inactive" then Some(Inactive)
    else if s == "deleted" then Some(Deleted)
    else if s == "pending" then Some(Pending)
    else if s == "banned" then Some(Banned)
    else if s == "created" then Some(Created)
    else None
  }

  /** Every enum value reads back from its own name. */
  lemma ParseNames(t: RouterType, s: Status)
    ensures ParseType(t.Name()) == Some(t)
    ensures ParseStatus(s.Name()) == Some(s)
  {
  }

  /** A stored router; `node`, `address`, `namespace`, `cluster`, `pod` and `routes` hold ids of other records. */
  datatype Router = Router(
    name: string,
    kind: RouterType,
    node: Id,
    address: Id,
    namespace: Id,
    cluster: Id,
    status: Status,
    pod: Option<Id>,
    routes: seq<Id>)

  /** The fields a caller supplies on create; `None` means omitted. */
  datatype RouterFields = RouterFields(
    name: Option<string>,
    kind: Option<string>,
    node: Option<Id>,
    address: Option<Id>,
    namespace: Option<Id>,
    cluster: Option<Id>,
    status: Option<string>,
    pod: Option<Id>,
    routes: Option<seq<Id>>)

  /** The fields of a router that carry a declared rule. */
  const FieldNames: set<string> := {"name", "type", "node", "address", "namespace", "cluster", "status"}

  /** The supplied value of `field` breaks its declared rule on create. */
  predicate Violates(f: RouterFields, field: string) {
    match field
    case "name" => f.name.None?
    case "type" => f.kind.Some? && f.kind.value !in TypeNames
    case "node" => f.node.None?
    case "address" => f.address.None?
    case "namespace" => f.namespace.None?
    case "cluster" => f.cluster.None?
    case "status" => f.status.Some? && f.status.value !in StatusNames
    case _ => false
  }

  /** The fields that break a rule on create. */
  function FieldErrors(f: RouterFields): set<string> {
    set field | field in FieldNames && Violates(f, field)
  }

  /** Validates the supplied fields and fills in the declared defaults. */
  function NewRouter(f: RouterFields): (r: Result<Router, Error>)
    ensures r.Success? <==> f.name.Some? && f.node.Some? && f.address.Some? && f.namespace.Some? && f.cluster.Some?
                            && (f.kind.None? || f.kind.value in TypeNames)
                            && (f.status.None? || f.status.value in StatusNames)
    ensures r.Failure? ==> r.error.ValidationError?
                           && ("name" in r.error.fields <==> f.name.None?)
                           && ("node" in r.error.fields <==> f.node.None?)
                           && ("address" in r.error.fields <==> f.address.None?)
                           && ("namespace" in r.error.fields <==> f.namespace.None?)
                           && ("cluster" in r.error.fields <==> f.cluster.None?)
                           && ("type" in r.error.fields <==> f.kind.Some? && f.kind.value !in TypeNames)
                           && ("status" in r.error.fields <==> f.status.Some? && f.status.value !in StatusNames)
                           && r.error.fields <= FieldNames
    ensures r.Success? ==> r.value.name == f.name.value && r.value.node == f.node.value
                           && r.value.address == f.address.value && r.value.namespace == f.namespace.value
                           && r.value.cluster == f.cluster.value && r.value.pod == f.pod
    ensures r.Success? ==> r.value.kind.Name() == f.kind.GetOr("shared")
                           && r.value.status.Name() == f.status.GetOr("pending")
                           && r.value.routes == f.routes.GetOr([])
  {
    var errors := FieldErrors(f);
    if errors != {} then Failure(ValidationError(errors))
    else
      assert forall field :: field in FieldNames ==> field !in errors;
      Success(Router(
        f.name.value,
        if f.kind.Some? then ParseType(f.kind.value).value else Shared,
        f.node.value,
        f.address.value,
        f.namespace.value,
        f.cluster.value,
        if f.status.Some? then ParseStatus(f.status.value).value else Pending,
        f.pod,
        f.routes.GetOr([])))
  }

  /** A router created with only its required fields is shared, pending, without pod or routes. */
  lemma CreateDefaults(name: string, node: Id, address: Id, namespace: Id, cluster: Id)
    ensures var r := NewRouter(RouterFields(Some(name), None, Some(node), Some(address), Some(namespace),
                                            Some(cluster), None, None, None));
            r.Success? && r.value.status == Pending && r.value.kind == Shared
            && r.value.pod.None? && r.value.routes == []
  {
  }

  /** No two stored routers share a name; soft-deleted rows stay in the index. */
  predicate UniqueNames(c: Collection<Router>) {
    forall a, b :: a in c && b in c && c[a].data.name == c[b].data.name ==> a == b
  }

  predicate NameTaken(c: Collection<Router>, name: string) {
    exists id :: id in c && c[id].data.name == name
  }

  /** The `create` action: validate, fill defaults, refuse a taken name, store under a fresh id. */
  function Create(c: Collection<Router>, id: Id, f: RouterFields): (r: Result<Collection<Router>, Error>)
    requires id !in c
    ensures r.Success? <==> NewRouter(f).Success? && !NameTaken(c, f.name.value)
    ensures NewRouter(f).Failure? ==> r == Failure(NewRouter(f).error)
    ensures NewRouter(f).Success? && NameTaken(c, f.name.value) ==> r == Failure(DuplicateKey("name", f.name.value))
    ensures r.Success? ==> r.value == Insert(c, id, NewRouter(f).value)
    ensures r.Success? && UniqueNames(c) ==> UniqueNames(r.value)
  {
    var router :- NewRouter(f);
    if NameTaken(c, router.name) then Failure(DuplicateKey("name", router.name))
    else Success(Insert(c, id, router))
  }

  /** Soft removal keeps names unique and hides the router from the default scope. */
  lemma RemoveKeepsUniqueNames(c: Collection<Router>, id: Id, now: nat)
    requires UniqueNames(c)
    ensures RemoveEntity(c, id, now).Success? ==> UniqueNames(RemoveEntity(c, id, now).value)
  {
  }

  /** The configuration key naming the namespace routers run in, and its declared default. */
  const NamespaceKey: Config.Key := "routes.routers.namespace"
  const DefaultNamespace: Config.Value := Config.Str("1OD3E7rd1Qh8gM08j0Le")
  const Defaults: map<Config.Key, Config.Value> := map[NamespaceKey := DefaultNamespace]

  /** After startup the namespace key holds its default unless the remote snapshot supplies one. */
  lemma NamespaceAfterStartup(snapshot: map<Config.Key, Config.Value>)
    ensures NamespaceKey in Config.Start(Some(Defaults), snapshot, Config.Empty)
    ensures Config.Start(Some(Defaults), snapshot, Config.Empty)[NamespaceKey]
            == if NamespaceKey in snapshot then snapshot[NamespaceKey] else DefaultNamespace
  {
  }
}

=== FILE: routes.dfy ===
/**
 * The routes service: the declared field rules of a Route, creation and
 * update under those rules, and the `lookup` action that finds a live route
 * by its exact virtual host.
 */
module Routes {
  import opened Wrappers
  import opened Errors
  import opened Text
  import opened Store

  /** The load-balancing strategies the `strategy` enum admits. */
  datatype Strategy = RandomStrategy | IPHashStrategy | LatencyStrategy | RoundRobinStrategy {
    function Name(): string {
      match this
      case RandomStrategy => "RandomStrategy"
      case IPHashStrategy => "IPHashStrategy"
      case LatencyStrategy => "LatencyStrategy"
      case RoundRobinStrategy => "RoundRobinStrategy"
    }
  }

  const StrategyNames: set<string> :=
    {"RandomStrategy", "IPHashStrategy", "LatencyStrategy", "RoundRobinStrategy"}

  /** Reads an enum value; only the four declared names are accepted. */
  function ParseStrategy(s: string): (r: Option<Strategy>)
    ensures r.Some? <==> s in StrategyNames
    ensures r.Some? ==> r.value.Name() == s
  {
    if s == "RandomStrategy" then Some(RandomStrategy)
    else if s == "IPHashStrategy" then Some(IPHashStrategy)
    else if s == "LatencyStrategy" then Some(LatencyStrategy)
    else if s == "RoundRobinStrategy" then Some(RoundRobinStrategy)
    else None
  }

  /** Every strategy reads back from its own name. */
  lemma ParseStrategyName(st: Strategy)
    ensures ParseStrategy(st.Name()) == Some(st)
  {
  }

  /** A stored route; `zone` and `auth` are `null` when absent. */
  datatype Route = Route(
    vHost: string,
    zone: Option<string>,
    certs: bool,
    auth: Option<string>,
    strategy: Strategy)

  /** The fields a caller supplies on create or update; `None` means omitted. */
  datatype RouteFields = RouteFields(
    vHost: Option<string>,
    zone: Option<string>,
    certs: Option<bool>,
    auth: Option<string>,
    strategy: Option<string>)

  const MinVHostLength := 3

  /** The declared rules every stored route meets. */
  predicate ValidRoute(r: Route) {
    Utf16Length(r.vHost) >= MinVHostLength && IsLowerCase(r.vHost)
  }

  predicate AllValid(c: Collection<Route>) {
    forall id :: id in c ==> ValidRoute(c[id].data)
  }

  /** The fields of a route that carry a declared rule. */
  const FieldNames: set<string> := {"vHost", "strategy"}

  /**
   * The supplied value of `field` breaks its declared rule; `vHost` is
   * required only when creating and its JavaScript length is checked after lower-casing.
   */
  predicate Violates(f: RouteFields, field: string, creating: bool) {
    match field
    case "vHost" => (creating && f.vHost.None?) || (f.vHost.Some? && Utf16Length(ToLower(f.vHost.value)) < MinVHostLength)
    case "strategy" => f.strategy.Some? && f.strategy.value !in StrategyNames
    case _ => false
  }

  /** The fields that break a rule. */
  function FieldErrors(f: RouteFields, creating: bool): set<string> {
    set field | field in FieldNames && Violates(f, field, creating)
  }

  /** Validates the supplied fields and fills in the declared defaults. */
  function NewRoute(f: RouteFields): (r: Result<Route, Error>)
    ensures r.Success? <==> f.vHost.Some? && Utf16Length(f.vHost.value) >= MinVHostLength
                            && (f.strategy.None? || f.strategy.value in StrategyNames)
    ensures r.Failure? ==> r.error.ValidationError?
                           && ("vHost" in r.error.fields <==> f.vHost.None? || Utf16Length(f.vHost.value) < MinVHostLength)
                           && ("strategy" in r.error.fields <==> f.strategy.Some? && f.strategy.value !in StrategyNames)
                           && r.error.fields <= FieldNames
    ensures r.Success? ==> ValidRoute(r.value) && r.value.vHost == ToLower(f.vHost.value)
    ensures r.Success? ==> r.value.zone == f.zone && r.value.auth == f.auth
    ensures r.Success? ==> r.value.certs == f.certs.GetOr(true)
    ensures r.Success? ==> r.value.strategy.Name() == f.strategy.GetOr("LatencyStrategy")
  {
    var errors := FieldErrors(f, true);
    if errors != {} then Failure(ValidationError(errors))
    else
      assert forall field :: field in FieldNames ==> field !in errors;
      Success(Route(
        ToLower(f.vHost.value),
        f.zone,
        f.certs.GetOr(true),
        f.auth,
        if f.strategy.Some? then ParseStrategy(f.strategy.value).value else LatencyStrategy))
  }

  /** A route created with only its virtual host gets every declared default. */
  lemma CreateDefaults(vHost: string)
    requires Utf16Length(vHost) >= MinVHostLength
    ensures var r := NewRoute(RouteFields(Some(vHost), None, None, None, None));
            r.Success? && r.value.certs && r.value.strategy == LatencyStrategy
            && r.value.zone.None? && r.value.auth.None?
  {
  }

  /** A host name with a character beyond the basic plane counts it as two code units, as JavaScript does. */
  lemma AstralVHostAccepted()
    ensures NewRoute(RouteFields(Some("a\U{1F600}"), None, None, None, None)).Success?
  {
    assert Utf16Length("a\U{1F600}") == 3;
  }

  /** Applies an update: supplied fields are validated and replace the stored ones. */
  function UpdateRoute(stored: Route, f: RouteFields): (r: Result<Route, Error>)
    ensures r.Success? <==> (f.vHost.None? || Utf16Length(f.vHost.value) >= MinVHostLength)
                            && (f.strategy.None? || f.strategy.value in StrategyNames)
    ensures r.Failure? ==> r.error.ValidationError?
                           && ("vHost" in r.error.fields <==> f.vHost.Some? && Utf16Length(f.vHost.value) < MinVHostLength)
                           && ("strategy" in r.error.fields <==> f.strategy.Some? && f.strategy.value !in StrategyNames)
                           && r.error.fields <= FieldNames
    ensures r.Success? && ValidRoute(stored) ==> ValidRoute(r.value)
    ensures r.Success? ==> r.value.vHost == (if f.vHost.Some? then ToLower(f.vHost.value) else stored.vHost)
    ensures r.Success? && f.strategy.Some? ==> r.value.strategy.Name() == f.strategy.value
    ensures r.Success? && f.strategy.None? ==> r.value.strategy == stored.strategy
    ensures r.Success? ==> r.value.zone == (if f.zone.Some? then f.zone else stored.zone)
                           && r.value.certs == f.certs.GetOr(stored.certs)
                           && r.value.auth == (if f.auth.Some? then f.auth else stored.auth)
  {
    var errors := FieldErrors(f, false);
    if errors != {} then Failure(ValidationError(errors))
    else
      assert forall field :: field in FieldNames ==> field !in errors;
      Success(Route(
        if f.vHost.Some? then ToLower(f.vHost.value) else stored.vHost,
        if f.zone.Some? then f.zone else stored.zone,
        f.certs.GetOr(stored.certs),
        if f.auth.Some? then f.auth else stored.auth,
        if f.strategy.Some? then ParseStrategy(f.strategy.value).value else stored.strategy))
  }

  /** The `create` action: validate, fill defaults and store under a fresh id. */
  function Create(c: Collection<Route>, id: Id, f: RouteFields): (r: Result<Collection<Route>, Error>)
    requires id !in c
    ensures r.Success? <==> NewRoute(f).Success?
    ensures r.Failure? ==> r == Failure(NewRoute(f).error)
    ensures r.Success? ==> r.value == Insert(c, id, NewRoute(f).value)
    ensures r.Success? && AllValid(c) ==> AllValid(r.value)
  {
    var route :- NewRoute(f);
    Success(Insert(c, id, route))
  }

  /** The row `id` is a live route whose virtual host is exactly `vHost`. */
  ghost predicate Matches(c: Collection<Route>, vHost: string, id: Id) {
    id in c && c[id].NotDeleted() && c[id].data.vHost == vHost
  }

  /** The error `lookup` raises when no live route has the virtual host. */
  function RouteNotFound(vHost: string): Error {
    ClientError("Route " + vHost + " not found", 404, "ROUTE_NOT_FOUND", map["vHost" := vHost])
  }

  /**
   * The `lookup` action: an empty query is refused by the parameter rules;
   * otherwise the first live route whose virtual host equals the query,
   * compared exactly and without lower-casing, or `ROUTE_NOT_FOUND`.
   */
  method Lookup(c: Collection<Route>, vHost: string) returns (r: Result<(Id, Route), Error>)
    ensures vHost == "" ==> r == Failure(ValidationError({"vHost"}))
    ensures r.Success? ==> Matches(c, vHost, r.value.0) && r.value.1 == c[r.value.0].data
    ensures vHost != "" && r.Failure? ==> r.error == RouteNotFound(vHost)
    ensures vHost != "" ==> (r.Failure? <==> forall id :: id in c ==> !Matches(c, vHost, id))
  {
    if vHost == "" {
      return Failure(ValidationError({"vHost"}));
    }
    var keys := c.Keys;
    while keys != {}
      invariant keys <= c.Keys
      invariant forall id :: id in c && id !in keys ==> !Matches(c, vHost, id)
      decreases keys
    {
      var id :| id in keys;
      if c[id].NotDeleted() && c[id].data.vHost == vHost {
        return Success((id, c[id].data));
      }
      keys := keys - {id};
    }
    return Failure(RouteNotFound(vHost));
  }

  /** A query holding an upper-case letter matches no stored route. */
  lemma UpperCaseQueryNeverMatches(c: Collection<Route>, vHost: string, i: nat)
    requires AllValid(c)
    requires i < |vHost| && IsUpper(vHost[i])
    ensures forall id :: id in c ==> !Matches(c, vHost, id)
  {
  }
}

=== FILE: store.dfy ===
/**
 * The persisted collection each service keeps its records in: rows keyed by
 * a system-assigned id, soft removal through `deletedAt`, and the
 * `notDeleted` default scope that hides removed rows from every query.
 */
module Store {
  import opened Wrappers
  import opened Errors

  type Id = string

  /** A stored record together with the stamp a removal writes into it. */
  datatype Row<T> = Row(data: T, deletedAt: Option<nat>) {

    /** The `notDeleted` scope: the row carries no `deletedAt`. */
    predicate NotDeleted() {
      deletedAt.None?
    }
  }

  type Collection<T> = map<Id, Row<T>>

  /**
   * A query under the default scope: the records of every row that is not
   * soft-deleted and satisfies `query`, keyed by their ids.
   */
  function FindEntities<T>(c: Collection<T>, query: T -> bool): (found: map<Id, T>)
    ensures forall id :: id in found ==> id in c && c[id].NotDeleted() && query(c[id].data)
    ensures forall id :: id in c && c[id].NotDeleted() && query(c[id].data) ==> id in found
    ensures forall id :: id in c && c[id].deletedAt.Some? ==> id !in found
    ensures forall id :: id in found ==> found[id] == c[id].data
  {
    map id | id in c && c[id].NotDeleted() && query(c[id].data) :: c[id].data
  }

  /** Stores a freshly created record under a new id. */
  function Insert<T>(c: Collection<T>, id: Id, data: T): (r: Collection<T>)
    requires id !in c
    ensures r.Keys == c.Keys + {id}
    ensures r[id].data == data && r[id].NotDeleted()
    ensures forall other :: other in c ==> r[other] == c[other]
  {
    c[id := Row(data, None)]
  }

  /**
   * Soft removal: a row visible under the default scope gains `deletedAt`
   * and stays stored; any other id is not found.
   */
  function RemoveEntity<T>(c: Collection<T>, id: Id, now: nat): (r: Result<Collection<T>, Error>)
    ensures r.Success? <==> id in c && c[id].NotDeleted()
    ensures r.Failure? ==> r.error == EntityNotFound(id)
    ensures r.Success? ==> r.value.Keys == c.Keys
    ensures r.Success? ==> r.value[id] == Row(c[id].data, Some(now))
    ensures r.Success? ==> forall other :: other in c && other != id ==> r.value[other] == c[other]
  {
    if id in c && c[id].NotDeleted() then
      Success(c[id := c[id].(deletedAt := Some(now))])
    else
      Failure(EntityNotFound(id))
  }

  /** Soft removal keeps the row stored and hides exactly that row from every default-scope query. */
  lemma RemoveHidesOnlyThatRow<T>(c: Collection<T>, id: Id, now: nat, query: T -> bool)
    requires RemoveEntity(c, id, now).Success?
    ensures id in RemoveEntity(c, id, now).value
    ensures FindEntities(RemoveEntity(c, id, now).value, query) == FindEntities(c, query) - {id}
  {
  }

  /** A freshly inserted row is visible to exactly the queries its record satisfies. */
  lemma InsertShowsNewRow<T>(c: Collection<T>, id: Id, data: T, query: T -> bool)
    requires id !in c
    ensures FindEntities(Insert(c, id, data), query)
            == if query(data) then FindEntities(c, query)[id := data] else FindEntities(c, query)
  {
  }
}

=== FILE: text.dfy ===
/** The lower-casing sanitizer applied to string fields declared `lowercase`. */
module Text {

  predicate IsUpper(c: char) {
    'A' <= c <= 'Z'
  }

  /** No character of `s` is an upper-case letter. */
  predicate IsLowerCase(s: string) {
    forall i :: 0 <= i < |s| ==> !IsUpper(s[i])
  }

  function ToLowerChar(c: char): (r: char)
    ensures !IsUpper(r)
    ensures !IsUpper(c) ==> r == c
    ensures IsUpper(c) ==> r as int - c as int == 'a' as int - 'A' as int
  {
    if IsUpper(c) then (c as int - 'A' as int + 'a' as int) as char else c
  }

  /** The number of UTF-16 code units `c` takes: two for characters beyond the basic plane. */
  function Utf16Units(c: char): nat {
    if c as int >= 0x1_0000 then 2 else 1
  }

  /** JavaScript's `length` of `s`, which counts UTF-16 code units. */
  function Utf16Length(s: string): (n: nat)
    ensures |s| <= n <= 2 * |s|
  {
    if s == [] then 0 else Utf16Units(s[0]) + Utf16Length(s[1..])
  }

  /** Lower-cases `s` letter by letter, keeping its length in characters and in UTF-16 code units. */
  function ToLower(s: string): (r: string)
    ensures |r| == |s|
    ensures forall i :: 0 <= i < |s| ==> r[i] == ToLowerChar(s[i])
    ensures IsLowerCase(r)
    ensures IsLowerCase(s) ==> r == s
    ensures Utf16Length(r) == Utf16Length(s)
  {
    if s == [] then []
    else
      var rest := ToLower(s[1..]);
      assert ([ToLowerChar(s[0])] + rest)[1..] == rest;
      [ToLowerChar(s[0])] + rest
  }

  /** Lower-casing twice is lower-casing once. */
  lemma ToLowerIdempotent(s: string)
    ensures ToLower(ToLower(s)) == ToLower(s)
  {
  }
}

=== FILE: wrappers.dfy ===
/** Failure-compatible wrappers used across the model. */
module Wrappers {

  /** An optional value: a field that was omitted, or a JavaScript `null`. */
  datatype Option<+T> = None | Some(value: T) {

    /** The wrapped value, or `default` when there is none. */
    function GetOr(default: T): T {
      match this
      case Some(v) => v
      case None => default
    }
  }

  /** The outcome of an operation that can fail with an error value. */
  datatype Result<+T, +E> = Success(value: T) | Failure(error: E) {

    predicate IsFailure() {
      Failure?
    }

    function PropagateFailure<U>(): Result<U, E>
      requires Failure?
    {
      Failure(error)
    }

    function Extract(): T
      requires Success?
    {
      value
    }
  }
}
